=== FILE: README.md ===
# Subscription lifecycle engine, modelled in Dafny

This project models the subscription lifecycle engine of a small Node.js
subscription service. The engine has three parts:

- **The subscription state machine** (`services/subscriptionService.js`):
  create, get, update and cancel. Each works on the primary store of
  subscriptions and on the Redis sorted set `expiration_queue`. That set is
  the expiration index: subscription id to end time.
- **The expiration sweep** (`worker/expirationWorker.js`): one tick takes
  the due index entries, turns each ACTIVE row EXPIRED and drops the entry.
- **The retry and transaction wrappers** (`utils/retry.js`).

Everything is a pure function over immutable values:

- The store is a `map<Id, Subscription>` and the index is a `map<Id, int>`.
- Time is an integer number of milliseconds. `addDays(t, n)` is `t + n * 86400000`.
- The database and Redis calls an attempt awaits are named steps
  (`SubscriptionService.Step`). The environment of an attempt (`Env`) says
  what the clock reads and whether one of those calls throws.

A mutating attempt has a transactional store part and a direct index part.
The store changes inside the transaction and is rolled back on any thrown
error. Index writes go straight to Redis and are not rolled back. Every operation
writes the index before `transaction.commit()`
(services/subscriptionService.js:40-45, 91-101, 128-130), so a failed
commit leaves the index change in place. The model keeps exactly that
order. The source's services inline the same try/commit/rollback pattern as
`withTransaction`, so the model reuses `Retry.WithTransaction` for them.

`withRetry` is a function of the outcomes its successive invocations would
produce (`Retry.Retry`). `Retry.WithRetry` follows the source's loop
statement by statement and is proved equal to it. An exported operation
(`SubscriptionService.Call`) runs its attempts one after another, each
starting from the state the previous one left, and applies `Retry.Retry`.

Files: `errors.dfy` (error taxonomy), `retry.dfy`, `models.dfy` (records,
store, index, invariants), `subscription_service.dfy`,
`expiration_worker.dfy`, `lifecycle.dfy` (runs mixing operations and ticks,
and the consequences of failed attempts).

Assumptions:

- `middleware/errorHandler.js` is not part of this model. `ValidationError`
  is taken to carry status code 400, `NotFoundError` 404, and
  `AppError(msg, 500)` 500. Errors from the database and Redis clients
  carry no status code, so they are retryable.
- The database behind `config/database.js` is not part of this model. Its
  auto-increment id sequence is assumed not to roll back with a
  transaction, as in PostgreSQL, so a rolled-back insert never hands its id
  out again (`State.nextId`). `Lifecycle.RetriedCreateLeavesStrayEntry`
  relies on this assumption. If the sequence rolled back, the retried
  create would reuse the id and its `zAdd` would overwrite the stray entry.
- `findOne` without an ORDER BY returns an unspecified ACTIVE row. The model
  returns the lowest id. Under the one-ACTIVE-per-user invariant there is
  only one candidate.
- The worker's query is modelled as the score range [0, now]. The code as
  written passes the option `BYSTORE`, which is not the client's score-range
  flag (see Findings).

## Model

| member | source | states |
|---|---|---|
| Retry.Retry | utils/retry.js:5-27 | At most `maxRetries` and at least one invocation. Every invocation before the last failed with a retryable error. A success or a 400/404 error on the last invocation is returned or rethrown unchanged. Otherwise the last invocation is number `maxRetries` and the result is a 500 error "Operation failed after {maxRetries} retries: {last message}". One wait of `delay*2^i` follows each failed invocation except the last. |
| Retry.WithRetry | utils/retry.js:5-27 | The source's `for` loop, with its early returns and its conditional wait, yields exactly the run `Retry.Retry` defines. |
| Retry.ScheduleSum | utils/retry.js:19-20 | The waits after the first n failures sum to `delay*(2^n - 1)`. |
| Retry.ExhaustedRun | utils/retry.js:8-26 | If all `maxRetries` attempts fail retryably: exactly `maxRetries` invocations, status 500, the fixed message, and a total wait of `delay*(2^(maxRetries-1) - 1)`. |
| Retry.RetryReadsPrefix | utils/retry.js:8-17 | Outcomes after the stopping one are never consulted. |
| Retry.WithTransaction | utils/retry.js:29-42 | Commit and return the operation's value exactly when the body completes and the commit succeeds. Otherwise the store is the one before the transaction, and the error is the same one the body or the commit threw. |
| Errors.NatToString | utils/retry.js:26 | The count in the exhaustion message is a decimal string with no leading zero that reads back as `maxRetries`. |
| Models.FindActiveFrom | services/subscriptionService.js:15-18 | The row found is an ACTIVE row of the user, and no lower id in range is one. None is returned only when no row in range is. |
| Models.FindActive | services/subscriptionService.js:74-81 | The lookup finds a row iff the user has an ACTIVE subscription. Under the invariant it is the only one. |
| SubscriptionService.Finish | services/subscriptionService.js:45-50 | Commit publishes the body's store and value. A thrown body or a failed commit restores the store. Index and id sequence keep what the body did. |
| SubscriptionService.CreateAttempt | services/subscriptionService.js:12-50 | A failure leaves the store as it was. Success inserts exactly one ACTIVE row under a fresh id, with startDate = now and endDate = addDays(now, duration), and indexes it under endDate. An existing ACTIVE subscription is refused first with the validation error, leaving store and index untouched. An unknown plan is refused next with "Plan not found", also untouched. With no infrastructure fault it succeeds iff neither applies. |
| SubscriptionService.GetAttempt | services/subscriptionService.js:56-65 | Changes nothing. Returns the user's ACTIVE row joined with its plan, or "No active subscription found". With no fault it succeeds iff such a row exists. |
| SubscriptionService.UpdateAttempt | services/subscriptionService.js:71-106 | Success gives the user's ACTIVE row the new plan and endDate = addDays(original startDate, new duration). Id, user, startDate and status stay. No other row changes. The index scores the row with the new endDate. No ACTIVE row gives "No active subscription found". An unknown plan gives "Plan not found" with store and index untouched. A failure leaves the store as it was. |
| SubscriptionService.CancelAttempt | services/subscriptionService.js:112-135 | Success turns the user's ACTIVE row CANCELLED, changes no other row, removes its index entry and returns "Subscription cancelled successfully". No ACTIVE row gives "No active subscription found" with nothing changed. A failure leaves the store as it was. |
| SubscriptionService.Call | services/subscriptionService.js:10-52 | A first attempt without an infrastructure fault is the only one made. More generally, the first attempt that succeeds or fails with a 400/404 error is the last one: the caller gets its result and the store and index it left. Callers see success, a 400/404 error, or a 500 error. A 500 error is exactly the exhaustion error naming the third attempt's error, and the state is the one the third attempt left. However the attempts fail, the store stays well formed with at most one ACTIVE subscription per user. |
| SubscriptionService.NoFaultAttemptStops | services/subscriptionService.js:20-27 | Without infrastructure faults an attempt fails only with a 400 or 404 error, so it is never retried. |
| SubscriptionService.AttemptPreservesInvariants | services/subscriptionService.js:15-38 | Any attempt, with any fault, keeps the store well formed and keeps at most one ACTIVE subscription per user. |
| SubscriptionService.TracePreservesInvariants | services/subscriptionService.js:11-51 | Every state along a sequence of retried attempts keeps those invariants. |
| ExpirationWorker.Due | worker/expirationWorker.js:6-8 | The due ids are what a ZRANGE by score from 0 to `now` returns. Among members with a non-negative score they form a prefix of the sorted set's order (score, then member): any such member that sorts before a due id is due too. |
| ExpirationWorker.ExpireIfActive | worker/expirationWorker.js:11-14 | The conditional update expires the row only if it is ACTIVE and leaves every other row alone. A missing row changes nothing. |
| ExpirationWorker.ApplyDue | worker/expirationWorker.js:10-16 | Processing a list of ids expires exactly the listed ACTIVE rows, field for field, and removes exactly the listed entries. |
| ExpirationWorker.Sweep | worker/expirationWorker.js:4-17 | After a tick no entry with a score in [0, now] remains. Entries not yet due keep their scores. A due ACTIVE row becomes EXPIRED with every other field kept. Rows that are not due or not ACTIVE, and rows that are missing, are unchanged, yet their due entries are still removed. |
| ExpirationWorker.ProcessExpiredSubscriptions | worker/expirationWorker.js:4-17 | The per-id loop gives the tick's result in whatever order the ids come. |
| ExpirationWorker.SweepIdempotent | worker/expirationWorker.js:6-16 | A second tick at the same time changes neither store nor index. |
| ExpirationWorker.SweepOnlyExpires | worker/expirationWorker.js:11-14 | A tick only moves ACTIVE to EXPIRED. It never revives a CANCELLED or EXPIRED row and keeps at most one ACTIVE subscription per user. |
| ExpirationWorker.SweepPreservesMirror | worker/expirationWorker.js:10-16 | If the index's ids were exactly the ACTIVE ids, scored with their end dates, they still are after a tick. |
| ExpirationWorker.Rank | worker/expirationWorker.js:6-8 | A member's rank in the sorted set is below the set's size. |
| ExpirationWorker.RankMonotone | worker/expirationWorker.js:6-8 | A member that sorts before another (by score, then member) has a smaller rank. |
| ExpirationWorker.RankInjective | worker/expirationWorker.js:6-8 | Distinct members have distinct ranks, so a rank range of width w holds at most w members. |
| ExpirationWorker.RankRangeReturnsWholeIndex | worker/expirationWorker.js:6-8 | Read as a rank range, `0..now` returns the whole index whenever it holds at most now + 1 entries. |
| ExpirationWorker.SweepAsWritten | worker/expirationWorker.js:4-17 | The tick as written removes entries by rank: for `now >= 0`, an entry leaves the index exactly when its rank is at most `now`, whatever its score. Rows that are not ACTIVE are unchanged. |
| ExpirationWorker.SweepAsWrittenExpiresAllIndexed | worker/expirationWorker.js:4-17 | Whenever the index holds at most now + 1 entries, the tick as written empties it and expires every indexed ACTIVE subscription, due or not. |
| ExpirationWorker.AsWrittenSweepExpiresEarly | worker/expirationWorker.js:6-8 | As written, a subscription created at `now` for 30 days is expired by the tick at `now`. The score-range tick leaves it ACTIVE. |
| Lifecycle.AttemptKeepsMirror | services/subscriptionService.js:32-45 | A failure-free attempt keeps the index's ids exactly the ACTIVE ids, each scored with its row's endDate. |
| Lifecycle.ApplyPreservesInv | worker/expirationWorker.js:10-16 | One failure-free operation or one tick keeps the whole invariant. |
| Lifecycle.RunPreservesInv | worker/expirationWorker.js:10-16 | Any failure-free sequence of operations and ticks keeps the invariant. That includes the store/index mirror. |
| Lifecycle.CreateThenGet | services/subscriptionService.js:29-43 | Create then get returns the created subscription: the user, the plan, startDate = creation time, endDate = addDays(start, duration), the plan joined, and an index entry carrying endDate. |
| Lifecycle.SecondCreateRefused | services/subscriptionService.js:15-22 | A second create for the same user fails with "User already has an active subscription" and changes nothing. |
| Lifecycle.CancelThenGet | services/subscriptionService.js:124-131 | Cancel confirms. A following get fails with "No active subscription found". |
| Lifecycle.TickExpiresDueSubscription | worker/expirationWorker.js:10-15 | A due ACTIVE subscription is EXPIRED after the tick, with its entry gone. A second tick is a no-op. |
| Lifecycle.CreateCommitFailureLeavesStrayEntry | services/subscriptionService.js:40-49 | A create whose commit fails leaves the store unchanged. The index keeps the entry written before the commit, for an id with no row. |
| Lifecycle.UpdateLateFailureMovesIndexOnly | services/subscriptionService.js:91-105 | A single update attempt whose save or commit fails keeps the old row, while the index already holds the new endDate. |
| Lifecycle.UpdateMidFailureDropsEntry | services/subscriptionService.js:91-95 | A single update attempt failing between removing and re-adding the entry leaves the ACTIVE row with no entry. |
| Lifecycle.CancelCommitFailureStrandsRow | services/subscriptionService.js:124-134 | A single cancel attempt whose commit fails keeps the row ACTIVE but already out of the index. Until another attempt succeeds, no sequence of ticks, at any times, expires it. |
| Lifecycle.FailedCancelStripsEntry | services/subscriptionService.js:124-134 | A cancel attempt whose commit fails changes only the index: the row's entry is removed, the store and id sequence are kept, and the commit's error is rethrown. |
| Lifecycle.RetriedCancelRestoresInv | services/subscriptionService.js:110-137 | The exported cancel repairs a failed commit: the next clean attempt cancels the same row, the caller gets the confirmation, and the whole invariant (mirror included) holds again. |
| Lifecycle.ExhaustedCancelStrandsRow | services/subscriptionService.js:110-137 | When all three cancel attempts fail at commit, the caller gets the exhaustion error, the store is unchanged, the row's entry is gone, and no sequence of ticks expires the row. |
| Lifecycle.UpdateRetryConverges | services/subscriptionService.js:69-108 | After an update attempt fails at the index write, the save or the commit, a clean retry ends exactly where a single clean attempt from the original state would. |
| Lifecycle.RetriedUpdateRestoresInv | services/subscriptionService.js:69-108 | The exported update repairs such a failure: the retry re-plans the same row with the new endDate, and the whole invariant holds again. |
| Lifecycle.UnindexedRowOutlivesTicks | worker/expirationWorker.js:6-16 | An ACTIVE row with no index entry is unchanged by any sequence of ticks and never regains an entry, because a tick only removes entries. |
| Lifecycle.RetriedCreateLeavesStrayEntry | services/subscriptionService.js:11-51 | A create retried after a failed commit succeeds on the second attempt under the next id, starting at that attempt's time. The first attempt's entry stays in the index for a row that does not exist. |

## Left out

- HTTP routing, controllers, validators, authentication and plan listing are not part of this model. Their behaviour is request handling and foreign library calls.
- Connection set-up and seeding are not part of this model. The seeded 30-day plans are just one possible `Plans` map.
- The `setInterval` schedule, async suspension, the real clock and concurrent interleavings are left out. That includes two creates racing for one user. The model is sequential, and the clock is an input to each attempt and tick.
- READ_COMMITTED isolation and Sequelize/Redis internals are left out. A transaction is an atomic store update with rollback.
- A rollback that itself throws is not modelled. Rollback always restores the store.
- date-fns calendar and daylight-saving behaviour of `addDays` is left out. A day is 86 400 000 ms.
- Index members are `id.toString()` in the source. Here they are the numeric id. Ties between equal scores are ordered by id, not by string.
- The worker has no error handling: a failing call aborts the rest of the tick. Ticks are modelled failure-free.
- Within one tick, ids are processed in any order. The worker's per-id steps touch one row and one entry, so the order does not change the result. This is proved by `ProcessExpiredSubscriptions`.
- Retry.Retry: requires `maxRetries >= 1`, because with 0 the source reads `.message` of an undefined `lastError`. It also requires one outcome per possible attempt. Waiting is recorded as a list of durations, not performed.
- Plan price and features are carried but never used by the engine.
- Errors.NatToString: covers the non-negative integers used as retry counts. A fractional or negative `maxRetries` is not modelled.

## Findings

| source | as written | input that shows it | evidently intended | confidence | as-written member | corrected member |
|---|---|---|---|---|---|---|
| worker/expirationWorker.js:6-8 | `zRange('expiration_queue', 0, now, { BYSTORE: true })`: the option is not the client's score flag, so `0..now` is a rank range | an index holding one subscription created at `now` for 30 days, swept at `now` | a score range: only entries with a score in [0, now] | medium; not executed; assumes the client ignores an unknown option key | ExpirationWorker.AsWrittenSweepExpiresEarly | ExpirationWorker.Sweep |

=== FILE: errors.dfy ===
/** The error taxonomy shared by the service, the retry wrapper and the worker.

    An error carries an optional HTTP status code and a message. Errors the
    service raises itself (`ValidationError`, `NotFoundError`, `AppError`)
    carry a code; errors thrown by the database or Redis clients carry none,
    which is what makes them retryable.
 */
module Errors {

  datatype Option<+T> = None | Some(value: T)

  datatype Error = Error(statusCode: Option<int>, message: string)

  /** The outcome of an operation: a value, or the error it threw. */
  datatype Result<+T> = Ok(value: T) | Err(error: Error)

  const ValidationStatus: int := 400
  const NotFoundStatus: int := 404
  const ServerStatus: int := 500

  function ValidationError(message: string): Error {
    Error(Some(ValidationStatus), message)
  }

  function NotFoundError(message: string): Error {
    Error(Some(NotFoundStatus), message)
  }

  function AppError(message: string, status: int): Error {
    Error(Some(status), message)
  }

  /** A client fault (validation or not-found) is never retried. */
  predicate IsClientFault(e: Error) {
    e.statusCode == Some(ValidationStatus) || e.statusCode == Some(NotFoundStatus)
  }

  /** Decimal rendering of a natural number, as a template literal renders
      a non-negative integer. */
  function NatToString(n: nat): (s: string)
    ensures |s| >= 1
    ensures forall i :: 0 <= i < |s| ==> '0' <= s[i] <= '9'
    ensures |s| > 1 ==> s[0] != '0'
    ensures DecimalValue(s) == n
    decreases n
  {
    if n < 10 then [Digit(n)]
    else
      var prefix := NatToString(n / 10);
      DecimalValueSnoc(prefix, Digit(n % 10));
      prefix + [Digit(n % 10)]
  }

  function Digit(d: nat): (c: char)
    requires d < 10
    ensures '0' <= c <= '9' && c as int - '0' as int == d
  {
    "0123456789"[d]
  }

  /** The number a string of decimal digits denotes. */
  function DecimalValue(s: string): int
    decreases |s|
  {
    if s == [] then 0
    else 10 * DecimalValue(s[..|s| - 1]) + (s[|s| - 1] as int - '0' as int)
  }

  lemma DecimalValueSnoc(s: string, c: char)
    ensures DecimalValue(s + [c]) == 10 * DecimalValue(s) + (c as int - '0' as int)
  {
  }
}

=== FILE: expiration_worker.dfy ===
/** The sweep of worker/expirationWorker.js: one tick of
    `processExpiredSubscriptions` at time `now`.

    A tick reads the due ids from the expiration index and, for each, runs
    the conditional update that turns an ACTIVE row EXPIRED (a row in any
    other state, or no row at all, is left alone), then removes the id from
    the index whether or not the row changed.
 */
module ExpirationWorker {
  import opened Models

  /** The ids whose score lies in [0, now]: what a score-range query
      `zRange('expiration_queue', 0, now)` returns. */
  function Due(index: Index, now: int): (due: set<Id>)
    ensures forall id :: id in due <==> id in index && 0 <= index[id] <= now
    // Among members with a non-negative score the due ids form a prefix of
    // the sorted set's order: whatever sorts before a due id is due too.
    ensures forall a, b | a in index && b in due && 0 <= index[a] && Before(index, a, b) :: a in due
  {
    set id | id in index && 0 <= index[id] <= now
  }

  /** `Subscription.update({ status: 'EXPIRED' }, { where: { id, status: 'ACTIVE' } })`. */
  function ExpireIfActive(subs: Store, id: Id): (r: Store)
    ensures r.Keys == subs.Keys
    ensures id in subs && subs[id].status == Active ==> r[id] == subs[id].(status := Expired)
    ensures forall other | other in subs && (other != id || subs[other].status != Active) :: r[other] == subs[other]
  {
    if id in subs && subs[id].status == Active then subs[id := subs[id].(status := Expired)] else subs
  }

  /** The store once every id of `ids` went through the conditional update. */
  function ExpireAll(subs: Store, ids: set<Id>): Store {
    map id | id in subs :: if id in ids && subs[id].status == Active then subs[id].(status := Expired) else subs[id]
  }

  /** The effect of processing the id list `due`: each listed ACTIVE row
      expires, each listed id leaves the index, nothing else changes. */
  function ApplyDue(st: State, due: set<Id>): (r: State)
    ensures r.nextId == st.nextId && r.subs.Keys == st.subs.Keys
    ensures r.index.Keys == st.index.Keys - due
    ensures forall id | id in r.index :: r.index[id] == st.index[id]
    ensures forall id | id in st.subs && id in due && st.subs[id].status == Active ::
              r.subs[id] == st.subs[id].(status := Expired)
    ensures forall id | id in st.subs && (id !in due || st.subs[id].status != Active) :: r.subs[id] == st.subs[id]
  {
    State(ExpireAll(st.subs, due), st.nextId, st.index - due)
  }

  /** One tick at time `now`. */
  function Sweep(st: State, now: int): (r: State)
    ensures r.subs.Keys == st.subs.Keys && r.nextId == st.nextId
    // No entry with a score in [0, now] is left.
    ensures forall id | id in r.index :: !(0 <= r.index[id] <= now)
    // Entries not yet due keep their score.
    ensures forall id | id in st.index && !(0 <= st.index[id] <= now) :: id in r.index && r.index[id] == st.index[id]
    ensures r.index.Keys <= st.index.Keys
    // A due ACTIVE row expires, with every other field kept.
    ensures forall id | id in st.subs && id in st.index && 0 <= st.index[id] <= now && st.subs[id].status == Active ::
              r.subs[id] == st.subs[id].(status := Expired)
    // Rows that are not due, or not ACTIVE, stay as they were.
    ensures forall id | id in st.subs && !(id in st.index && 0 <= st.index[id] <= now && st.subs[id].status == Active) ::
              r.subs[id] == st.subs[id]
  {
    ApplyDue(st, Due(st.index, now))
  }

  lemma ExpireStep(subs: Store, done: set<Id>, id: Id)
    requires id !in done
    ensures ExpireIfActive(ExpireAll(subs, done), id) == ExpireAll(subs, done + {id})
  {
  }

  /** The tick as the worker runs it: the ids are handled one at a time, in
      whatever order the index returns them. */
  method ProcessExpiredSubscriptions(st: State, now: int) returns (r: State)
    ensures r == Sweep(st, now)
  {
    var expired := Due(st.index, now);
    var subs := st.subs;
    var index := st.index;
    var remaining := expired;
    while remaining != {}
      invariant remaining <= expired
      invariant subs == ExpireAll(st.subs, expired - remaining)
      invariant index == st.index - (expired - remaining)
      decreases |remaining|
    {
      var id :| id in remaining;
      ExpireStep(st.subs, expired - remaining, id);
      subs := ExpireIfActive(subs, id);
      index := index - {id};
      assert expired - (remaining - {id}) == (expired - remaining) + {id};
      remaining := remaining - {id};
    }
    assert expired - remaining == expired;
    r := State(subs, st.nextId, index);
  }

  /** A second tick at the same time changes nothing. */
  lemma SweepIdempotent(st: State, now: int)
    ensures Sweep(Sweep(st, now), now) == Sweep(st, now)
  {
  }

  /** A tick only performs ACTIVE -> EXPIRED: it never revives a row, never
      touches a CANCELLED one, and so keeps the per-user invariant. */
  lemma SweepOnlyExpires(st: State, now: int)
    ensures forall id | id in st.subs ::
              Sweep(st, now).subs[id] == st.subs[id]
              || (st.subs[id].status == Active && Sweep(st, now).subs[id] == st.subs[id].(status := Expired))
    ensures AtMostOneActive(st.subs) ==> AtMostOneActive(Sweep(st, now).subs)
    ensures Wf(st) ==> Wf(Sweep(st, now))
  {
  }

  /** A tick keeps the mirror between store and index: the rows it expires
      are exactly the ones whose entries it removes. */
  lemma SweepPreservesMirror(st: State, now: int)
    requires Mirror(st)
    ensures Mirror(Sweep(st, now))
  {
  }

  // ------------------------------------------------ the query as written

  // The option object the worker passes spells `BYSTORE`, which is not the
  // sorted-set client's score-range flag; read without it, the call is
  // `ZRANGE expiration_queue 0 now` over ranks, not scores.

  /** The sorted set's order: by score, ties broken by member. */
  predicate Before(index: Index, a: Id, b: Id)
    requires a in index && b in index
  {
    index[a] < index[b] || (index[a] == index[b] && a < b)
  }

  lemma SubsetCardinality<T>(a: set<T>, b: set<T>)
    requires a <= b
    ensures |a| <= |b|
  {
    if a != {} {
      var x :| x in a;
      SubsetCardinality(a - {x}, b - {x});
    }
  }

  /** 0-based rank of `id` in the sorted set. */
  function Rank(index: Index, id: Id): (k: nat)
    requires id in index
    ensures k < |index|
  {
    var before := set j | j in index && Before(index, j, id);
    SubsetCardinality(before, index.Keys - {id});
    |before|
  }

  /** Rank follows the sorted set's order. */
  lemma RankMonotone(index: Index, a: Id, b: Id)
    requires a in index && b in index && Before(index, a, b)
    ensures Rank(index, a) < Rank(index, b)
  {
    var beforeA := set j | j in index && Before(index, j, a);
    var beforeB := set j | j in index && Before(index, j, b);
    assert a in beforeB && a !in beforeA;
    assert beforeA <= beforeB - {a};
    SubsetCardinality(beforeA, beforeB - {a});
  }

  /** Distinct members have distinct ranks, so a rank range of width w
      holds at most w members. */
  lemma RankInjective(index: Index, a: Id, b: Id)
    requires a in index && b in index && a != b
    ensures Rank(index, a) != Rank(index, b)
  {
    if Before(index, a, b) {
      RankMonotone(index, a, b);
    } else {
      RankMonotone(index, b, a);
    }
  }

  /** ZRANGE by rank: the members ranked start..stop, where a negative bound
      counts back from the end. */
  function RankRangeDue(index: Index, start: int, stop: int): set<Id> {
    var lo := if start < 0 then |index| + start else start;
    var hi := if stop < 0 then |index| + stop else stop;
    set id | id in index && lo <= Rank(index, id) <= hi
  }

  /** The tick as written: entries leave the index by rank, not by score,
      so the first now + 1 members go whatever their end dates. */
  function SweepAsWritten(st: State, now: int): (r: State)
    ensures r.subs.Keys == st.subs.Keys && r.nextId == st.nextId
    ensures 0 <= now ==> forall id | id in st.index :: id !in r.index <==> Rank(st.index, id) <= now
    ensures forall id | id in st.subs && st.subs[id].status != Active :: r.subs[id] == st.subs[id]
  {
    ApplyDue(st, RankRangeDue(st.index, 0, now))
  }

  /** Read as a rank range, the query returns the whole index whenever the
      index holds no more than now + 1 entries, which a millisecond clock
      always exceeds. */
  lemma RankRangeReturnsWholeIndex(index: Index, now: int)
    requires 0 <= now && |index| <= now + 1
    ensures RankRangeDue(index, 0, now) == index.Keys
  {
  }

  /** So the tick as written empties the index and expires every indexed
      ACTIVE subscription, due or not. */
  lemma SweepAsWrittenExpiresAllIndexed(st: State, now: int)
    requires 0 <= now && |st.index| <= now + 1
    ensures SweepAsWritten(st, now).index == map[]
    ensures forall id | id in st.subs && id in st.index && st.subs[id].status == Active ::
              SweepAsWritten(st, now).subs[id] == st.subs[id].(status := Expired)
  {
    RankRangeReturnsWholeIndex(st.index, now);
  }

  /** A subscription created at `now` for 30 days is expired by the tick at
      the same `now` as written, and left ACTIVE by the score-range tick. */
  lemma AsWrittenSweepExpiresEarly()
    ensures var now := 1_700_000_000_000;
            var end := AddDays(now, 30);
            var st := State(map[0 := Subscription(0, 1, 1, now, end, Active)], 1, map[0 := end]);
            && SweepAsWritten(st, now).subs[0].status == Expired
            && Sweep(st, now).subs[0].status == Active
  {
  }
}

=== FILE: lifecycle.dfy ===
/** The engine as a whole: API operations and worker ticks interleaved on
    one store and one expiration index, and what survives a failed attempt.
 */
module Lifecycle {
  import opened Errors
  import opened Models
  import opened SubscriptionService
  import ExpirationWorker
  import Retry

  /** The invariant of a failure-free run: well-formed store, at most one
      ACTIVE subscription per user, and an index mirroring the ACTIVE rows. */
  predicate Inv(st: State) {
    Wf(st) && AtMostOneActive(st.subs) && Mirror(st)
  }

  datatype Event = Request(op: Op, now: int) | Tick(now: int)

  /** The environments of a call in which nothing fails, at time `now`. */
  function Calm(now: int): (envs: seq<Env>)
    ensures |envs| == Retry.DefaultMaxRetries
  {
    [Env(now, NoFault), Env(now, NoFault), Env(now, NoFault)]
  }

  function Apply(st: State, plans: Plans, e: Event): State {
    match e
    case Request(op, now) => Call(st, plans, op, Calm(now)).state
    case Tick(now) => ExpirationWorker.Sweep(st, now)
  }

  function Run(st: State, plans: Plans, events: seq<Event>): State
    decreases |events|
  {
    if events == [] then st else Run(Apply(st, plans, events[0]), plans, events[1..])
  }

  /** A failure-free attempt keeps the index mirroring the ACTIVE rows: the
      index entry is written together with the row it mirrors. */
  lemma AttemptKeepsMirror(st: State, plans: Plans, op: Op, now: int)
    requires Inv(st)
    ensures Inv(Attempt(st, plans, op, Env(now, NoFault)).state)
  {
  }

  lemma ApplyPreservesInv(st: State, plans: Plans, e: Event)
    requires Inv(st)
    ensures Inv(Apply(st, plans, e))
  {
    match e
    case Request(op, now) =>
      AttemptKeepsMirror(st, plans, op, now);
    case Tick(now) =>
      ExpirationWorker.SweepOnlyExpires(st, now);
      ExpirationWorker.SweepPreservesMirror(st, now);
  }

  /** In any failure-free sequence of operations and ticks the invariant
      holds throughout: in particular the index's ids are exactly the ACTIVE
      ids, each scored with its row's end date. */
  lemma {:induction false} RunPreservesInv(st: State, plans: Plans, events: seq<Event>)
    requires Inv(st)
    ensures Inv(Run(st, plans, events))
    decreases |events|
  {
    if events != [] {
      ApplyPreservesInv(st, plans, events[0]);
      RunPreservesInv(Apply(st, plans, events[0]), plans, events[1..]);
    }
  }

  // ------------------------------------------------------------ scenarios

  /** Create then get: the subscription read back is the one created, joined
      with its plan, starting at the creation time and ending the plan's
      duration later; its index entry carries that end date. */
  lemma CreateThenGet(st: State, plans: Plans, userId: int, planId: int, t0: int, t1: int)
    requires Inv(st) && !HasActive(st.subs, userId) && planId in plans
    ensures var created := Call(st, plans, CreateOp(userId, planId), Calm(t0));
            && created.result.Ok?
            && var sub := created.result.value.sub;
               && sub.userId == userId && sub.planId == planId && sub.status == Active
               && sub.startDate == t0 && sub.endDate == AddDays(t0, plans[planId].duration)
               && created.state.index[sub.id] == sub.endDate
               && Call(created.state, plans, GetOp(userId), Calm(t1)).result == Ok(Joined(sub, Some(plans[planId])))
  {
    var created := Call(st, plans, CreateOp(userId, planId), Calm(t0));
    AttemptKeepsMirror(st, plans, CreateOp(userId, planId), t0);
    var sub := created.result.value.sub;
    assert created.state.subs[sub.id] == sub;
    assert HasActive(created.state.subs, userId);
  }

  /** A second create for the same user is refused with the validation
      error, whatever plan it names. */
  lemma SecondCreateRefused(st: State, plans: Plans, userId: int, planId: int, otherPlan: int, t0: int, t1: int)
    requires Inv(st) && !HasActive(st.subs, userId) && planId in plans
    ensures var created := Call(st, plans, CreateOp(userId, planId), Calm(t0));
            Call(created.state, plans, CreateOp(userId, otherPlan), Calm(t1))
            == Outcome(created.state, Err(ValidationError(ActiveExistsMessage)))
  {
    var created := Call(st, plans, CreateOp(userId, planId), Calm(t0));
    AttemptKeepsMirror(st, plans, CreateOp(userId, planId), t0);
    var sub := created.result.value.sub;
    assert created.state.subs[sub.id] == sub;
    assert HasActive(created.state.subs, userId);
  }

  /** Cancel then get: after a cancellation the user has no ACTIVE
      subscription to read, and the cancelled row has left the index. */
  lemma CancelThenGet(st: State, plans: Plans, userId: int, t0: int, t1: int)
    requires Inv(st) && HasActive(st.subs, userId)
    ensures var cancelled := Call(st, plans, CancelOp(userId), Calm(t0));
            && cancelled.result == Ok(Message(CancelledMessage))
            && Call(cancelled.state, plans, GetOp(userId), Calm(t1)).result == Err(NotFoundError(NoActiveMessage))
  {
  }

  /** An ACTIVE subscription whose end date has come is expired by the next
      tick and leaves the index; a second tick changes nothing more. */
  lemma TickExpiresDueSubscription(st: State, id: Id, now: int)
    requires Inv(st) && id in st.subs && st.subs[id].status == Active && 0 <= st.subs[id].endDate <= now
    ensures var after := ExpirationWorker.Sweep(st, now);
            && after.subs[id] == st.subs[id].(status := Expired)
            && id !in after.index
            && ExpirationWorker.Sweep(after, now) == after
  {
  }

  // ------------------------------------------------- failed attempts

  /** A create whose commit fails rolls the row back, but the index entry
      written before the commit stays, pointing at no row. */
  lemma CreateCommitFailureLeavesStrayEntry(st: State, plans: Plans, userId: int, planId: int, now: int, e: Error)
    requires Wf(st) && !HasActive(st.subs, userId) && planId in plans
    ensures var out := CreateAttempt(st, plans, userId, planId, Env(now, FailAt(AtCommit, e)));
            && out.result == Err(e)
            && out.state.subs == st.subs
            && st.nextId !in out.state.subs
            && out.state.index == st.index[st.nextId := AddDays(now, plans[planId].duration)]
  {
  }

  /** An update attempt whose save or commit fails leaves the row with its
      old plan and end date while the index already scores it with the new
      one. */
  lemma UpdateLateFailureMovesIndexOnly(st: State, plans: Plans, userId: int, planId: int, now: int, step: Step, e: Error)
    requires Wf(st) && HasActive(st.subs, userId) && planId in plans
    requires step == AtSave || step == AtCommit
    ensures var id := FindActive(st, userId).value;
            var out := UpdateAttempt(st, plans, userId, planId, Env(now, FailAt(step, e)));
            && out.result == Err(e)
            && out.state.subs == st.subs
            && out.state.index == st.index[id := AddDays(st.subs[id].startDate, plans[planId].duration)]
  {
  }

  /** An update attempt failing between removing and re-adding the index
      entry leaves the ACTIVE row with no entry at all. */
  lemma UpdateMidFailureDropsEntry(st: State, plans: Plans, userId: int, planId: int, now: int, e: Error)
    requires Wf(st) && HasActive(st.subs, userId) && planId in plans
    ensures var id := FindActive(st, userId).value;
            var out := UpdateAttempt(st, plans, userId, planId, Env(now, FailAt(AtIndexAdd, e)));
            && out.result == Err(e)
            && out.state.subs == st.subs
            && out.state.index == st.index - {id}
  {
  }

  /** The worker's ticks at the given times, one after another. */
  function Ticks(st: State, times: seq<int>): State
    decreases |times|
  {
    if times == [] then st else Ticks(ExpirationWorker.Sweep(st, times[0]), times[1..])
  }

  /** An ACTIVE row with no index entry is never expired: ticks only remove
      entries, so it never gets one back. */
  lemma {:induction false} UnindexedRowOutlivesTicks(st: State, id: Id, times: seq<int>)
    requires id in st.subs && st.subs[id].status == Active && id !in st.index
    ensures id in Ticks(st, times).subs && Ticks(st, times).subs[id] == st.subs[id]
    ensures id !in Ticks(st, times).index
    decreases |times|
  {
    if times != [] {
      UnindexedRowOutlivesTicks(ExpirationWorker.Sweep(st, times[0]), id, times[1..]);
    }
  }

  /** A cancel attempt whose commit fails leaves the row ACTIVE but already
      removed from the index, so until another attempt succeeds no sequence
      of ticks expires it. */
  lemma CancelCommitFailureStrandsRow(st: State, userId: int, now: int, e: Error, times: seq<int>)
    requires Wf(st) && HasActive(st.subs, userId)
    ensures var id := FindActive(st, userId).value;
            var out := CancelAttempt(st, userId, Env(now, FailAt(AtCommit, e)));
            && out.result == Err(e)
            && out.state.subs[id].status == Active
            && id !in out.state.index
            && id in Ticks(out.state, times).subs && Ticks(out.state, times).subs[id].status == Active
  {
    var id := FindActive(st, userId).value;
    var out := CancelAttempt(st, userId, Env(now, FailAt(AtCommit, e)));
    UnindexedRowOutlivesTicks(out.state, id, times);
  }

  /** The exported cancel repairs a failed commit: the retry finds the row
      still ACTIVE, cancels it, and the invariant holds again. */
  lemma RetriedCancelRestoresInv(st: State, plans: Plans, userId: int, e: Error, t0: int, t1: int, t2: int)
    requires Inv(st) && HasActive(st.subs, userId) && !IsClientFault(e)
    ensures var envs := [Env(t0, FailAt(AtCommit, e)), Env(t1, NoFault), Env(t2, NoFault)];
            var out := Call(st, plans, CancelOp(userId), envs);
            && out.result == Ok(Message(CancelledMessage))
            && Inv(out.state)
            && !HasActive(out.state.subs, userId)
  {
    var envs := [Env(t0, FailAt(AtCommit, e)), Env(t1, NoFault), Env(t2, NoFault)];
    var t := Trace(st, plans, CancelOp(userId), envs);
    var id := FindActive(st, userId).value;
    assert t[0].state == State(st.subs, st.nextId, st.index - {id});
    assert t[1].result.Ok?;
    assert t[1].state == State(st.subs[id := st.subs[id].(status := Cancelled)], st.nextId, st.index - {id});
    assert !Retry.Stops(Results(t)[0]) && Retry.Stops(Results(t)[1]);
  }

  /** Only when every attempt's commit fails does the exported cancel strand
      the row: the caller gets the exhaustion error, the row is still ACTIVE,
      its entry is gone, and no sequence of ticks expires it. */
  lemma ExhaustedCancelStrandsRow(st: State, plans: Plans, userId: int, e: Error, t0: int, t1: int, t2: int, times: seq<int>)
    requires Wf(st) && HasActive(st.subs, userId) && !IsClientFault(e)
    ensures var id := FindActive(st, userId).value;
            var envs := [Env(t0, FailAt(AtCommit, e)), Env(t1, FailAt(AtCommit, e)), Env(t2, FailAt(AtCommit, e))];
            var out := Call(st, plans, CancelOp(userId), envs);
            && out.result == Err(Retry.ExhaustedError(Retry.DefaultMaxRetries, e))
            && out.state.subs == st.subs
            && id !in out.state.index
            && id in Ticks(out.state, times).subs && Ticks(out.state, times).subs[id].status == Active
  {
    var id := FindActive(st, userId).value;
    var envs := [Env(t0, FailAt(AtCommit, e)), Env(t1, FailAt(AtCommit, e)), Env(t2, FailAt(AtCommit, e))];
    var t := Trace(st, plans, CancelOp(userId), envs);
    var stripped := State(st.subs, st.nextId, st.index - {id});
    FailedCancelStripsEntry(st, userId, t0, e);
    FailedCancelStripsEntry(stripped, userId, t1, e);
    FailedCancelStripsEntry(stripped, userId, t2, e);
    assert stripped.index - {id} == stripped.index;
    assert t[0] == Outcome(stripped, Err(e));
    assert t[1] == Outcome(stripped, Err(e));
    assert t[2] == Outcome(stripped, Err(e));
    UnindexedRowOutlivesTicks(stripped, id, times);
  }

  /** A cancel attempt whose commit fails only strips the row's entry. */
  lemma FailedCancelStripsEntry(st: State, userId: int, now: int, e: Error)
    requires Wf(st) && HasActive(st.subs, userId)
    ensures var id := FindActive(st, userId).value;
            CancelAttempt(st, userId, Env(now, FailAt(AtCommit, e))) == Outcome(State(st.subs, st.nextId, st.index - {id}), Err(e))
  {
  }

  /** A failed update attempt followed by a clean one ends where a single
      clean attempt would have. */
  lemma UpdateRetryConverges(st: State, plans: Plans, userId: int, planId: int, step: Step, e: Error, t0: int, t1: int)
    requires Wf(st) && HasActive(st.subs, userId) && planId in plans
    requires step == AtSave || step == AtCommit || step == AtIndexAdd
    ensures var failed := UpdateAttempt(st, plans, userId, planId, Env(t0, FailAt(step, e)));
            var retried := UpdateAttempt(failed.state, plans, userId, planId, Env(t1, NoFault));
            && failed.result == Err(e)
            && retried == UpdateAttempt(st, plans, userId, planId, Env(t1, NoFault))
  {
    var failed := UpdateAttempt(st, plans, userId, planId, Env(t0, FailAt(step, e)));
    var id := FindActive(st, userId).value;
    var endDate := AddDays(st.subs[id].startDate, plans[planId].duration);
    assert failed.state.subs == st.subs && failed.state.nextId == st.nextId;
    assert failed.state.index - {id} == st.index - {id};
    assert (failed.state.index - {id})[id := endDate] == (st.index - {id})[id := endDate];
  }

  /** The exported update repairs a failed index write, save or commit: the
      retry finds the same ACTIVE row, re-plans it, and the invariant holds
      again. */
  lemma RetriedUpdateRestoresInv(st: State, plans: Plans, userId: int, planId: int, step: Step, e: Error, t0: int, t1: int, t2: int)
    requires Inv(st) && HasActive(st.subs, userId) && planId in plans && !IsClientFault(e)
    requires step == AtSave || step == AtCommit || step == AtIndexAdd
    ensures var id := FindActive(st, userId).value;
            var envs := [Env(t0, FailAt(step, e)), Env(t1, NoFault), Env(t2, NoFault)];
            var out := Call(st, plans, UpdateOp(userId, planId), envs);
            && out.result.Ok?
            && out.state.subs == st.subs[id := st.subs[id].(planId := planId, endDate := AddDays(st.subs[id].startDate, plans[planId].duration))]
            && Inv(out.state)
  {
    var envs := [Env(t0, FailAt(step, e)), Env(t1, NoFault), Env(t2, NoFault)];
    var t := Trace(st, plans, UpdateOp(userId, planId), envs);
    UpdateRetryConverges(st, plans, userId, planId, step, e, t0, t1);
    AttemptKeepsMirror(st, plans, UpdateOp(userId, planId), t1);
    assert t[1] == UpdateAttempt(st, plans, userId, planId, Env(t1, NoFault));
    assert !Retry.Stops(Results(t)[0]) && Retry.Stops(Results(t)[1]);
  }

  /** A create retried after a failed commit succeeds under the next id;
      the first attempt's index entry stays behind for a row that does not
      exist, until a tick clears it. */
  lemma RetriedCreateLeavesStrayEntry(st: State, plans: Plans, userId: int, planId: int, t0: int, t1: int, t2: int, msg: string)
    requires Wf(st) && !HasActive(st.subs, userId) && planId in plans
    ensures var envs := [Env(t0, FailAt(AtCommit, Error(None, msg))), Env(t1, NoFault), Env(t2, NoFault)];
            var out := Call(st, plans, CreateOp(userId, planId), envs);
            var end0 := AddDays(t0, plans[planId].duration);
            && out.result.Ok? && out.result.value.Row?
            && out.result.value.sub.id == st.nextId + 1
            && out.result.value.sub.startDate == t1
            && st.nextId !in out.state.subs
            && st.nextId in out.state.index && out.state.index[st.nextId] == end0
            && out.state.nextId == st.nextId + 2
  {
    var envs := [Env(t0, FailAt(AtCommit, Error(None, msg))), Env(t1, NoFault), Env(t2, NoFault)];
    var t := Trace(st, plans, CreateOp(userId, planId), envs);
    var first := t[0];
    assert first == CreateAttempt(st, plans, userId, planId, envs[0]);
    assert first.result == Err(Error(None, msg));
    assert Wf(first.state);
    assert first.state.subs == st.subs;
    assert !HasActive(first.state.subs, userId);
    var second := t[1];
    assert second == CreateAttempt(first.state, plans, userId, planId, envs[1]);
    assert second.result.Ok?;
    var run := Retry.Retry(Results(t), Retry.DefaultMaxRetries, Retry.DefaultDelay);
    assert !Retry.Stops(Results(t)[0]);
    assert Retry.Stops(Results(t)[1]);
    assert run.invocations == 2;
  }
}

=== FILE: models.dfy ===
/** The data of the subscription engine: the Subscription and Plan records
    of models/subscription.js and models/plan.js, the primary store, and the
    Redis sorted set `expiration_queue` that indexes pending expirations.

    Timestamps are integers in milliseconds since the epoch, the value
    `Date.getTime()` yields and the index uses as its score.
 */
module Models {
  import opened Errors

  type Id = nat

  /** INACTIVE is declared by the schema but produced by no operation. */
  datatype Status = Active | Inactive | Cancelled | Expired

  /** A plan row; `priceCents` stands for the DECIMAL(10, 2) price. */
  datatype Plan = Plan(name: string, priceCents: int, features: Option<seq<string>>, duration: int)

  datatype Subscription = Subscription(
    id: Id,
    userId: int,
    planId: int,
    startDate: int,
    endDate: int,
    status: Status)

  type Store = map<Id, Subscription>

  /** The expiration index: subscription id to score (its end time). */
  type Index = map<Id, int>

  type Plans = map<int, Plan>

  /** Everything the engine reads and writes. `nextId` is the id sequence
      behind the auto-increment primary key: it is not part of a transaction,
      so a rollback never hands an id out twice. */
  datatype State = State(subs: Store, nextId: Id, index: Index)

  const DayMs: int := 24 * 60 * 60 * 1000

  /** `addDays` of date-fns, on millisecond timestamps. */
  function AddDays(t: int, days: int): int {
    t + days * DayMs
  }

  /** Representation invariant: every row sits under its own id, below the
      next id the sequence will hand out. */
  predicate Wf(st: State) {
    forall id | id in st.subs :: id < st.nextId && st.subs[id].id == id
  }

  predicate IsActiveOf(s: Subscription, userId: int) {
    s.status == Active && s.userId == userId
  }

  predicate HasActive(subs: Store, userId: int) {
    exists id | id in subs :: IsActiveOf(subs[id], userId)
  }

  /** The business invariant: at most one ACTIVE subscription per user. */
  predicate AtMostOneActive(subs: Store) {
    forall a, b | a in subs && b in subs && subs[a].status == Active && subs[b].status == Active
      :: subs[a].userId == subs[b].userId ==> a == b
  }

  /** The mirror invariant between store and index: the indexed ids are
      exactly the ACTIVE ids, each scored with its row's end date. */
  predicate Mirror(st: State) {
    && (forall id | id in st.index ::
          id in st.subs && st.subs[id].status == Active && st.index[id] == st.subs[id].endDate)
    && (forall id | id in st.subs && st.subs[id].status == Active :: id in st.index)
  }

  /** `findOne({ where: { userId, status: 'ACTIVE' } })`: the key of the
      lowest-id ACTIVE row of `userId` among the ids in [i, n). */
  function FindActiveFrom(subs: Store, userId: int, i: nat, n: nat): (r: Option<Id>)
    ensures r.Some? ==> i <= r.value < n && r.value in subs && IsActiveOf(subs[r.value], userId)
    ensures r.Some? ==> forall id | i <= id < r.value && id in subs :: !IsActiveOf(subs[id], userId)
    ensures r.None? ==> forall id | i <= id < n && id in subs :: !IsActiveOf(subs[id], userId)
    decreases n - i
  {
    if i >= n then None
    else if i in subs && IsActiveOf(subs[i], userId) then Some(i)
    else FindActiveFrom(subs, userId, i + 1, n)
  }

  /** The user's ACTIVE subscription as the store query finds it. */
  function FindActive(st: State, userId: int): (r: Option<Id>)
    ensures r.Some? ==> r.value in st.subs && IsActiveOf(st.subs[r.value], userId)
    ensures Wf(st) ==> (r.None? <==> !HasActive(st.subs, userId))
    ensures Wf(st) && AtMostOneActive(st.subs) && r.Some? ==>
              forall id | id in st.subs && IsActiveOf(st.subs[id], userId) :: id == r.value
  {
    FindActiveFrom(st.subs, userId, 0, st.nextId)
  }
}

=== FILE: retry.dfy ===
/** The retry and transaction wrappers of utils/retry.js, as pure control flow.

    `withRetry` is modelled over the sequence of outcomes its successive
    invocations of the operation would produce: `outcomes[i]` is what the
    (i+1)-th invocation returns or throws. The timers it awaits become the
    list of waits it would schedule, in milliseconds.
 */
module Retry {
  import opened Errors

  const DefaultMaxRetries: nat := 3
  const DefaultDelay: int := 1000

  /** What one call of `withRetry` does: its result, how many times it
      invoked the operation, and the backoff waits it awaited in order. */
  datatype RetryRun<+T> = RetryRun(result: Result<T>, invocations: nat, waits: seq<int>)

  /** An attempt outcome after which the loop stops: a success, or a
      client fault that is rethrown at once. */
  predicate Stops<T>(o: Result<T>) {
    o.Ok? || IsClientFault(o.error)
  }

  function Pow2(i: nat): (p: nat)
    ensures p >= 1
  {
    if i == 0 then 1 else 2 * Pow2(i - 1)
  }

  /** The wait after failed attempt `i` (0-based): delay * 2^i. */
  function Backoff(delay: int, i: nat): int {
    delay * Pow2(i)
  }

  /** The waits after the first `n` failed attempts. */
  function Schedule(delay: int, n: nat): (ws: seq<int>)
    ensures |ws| == n
    ensures forall i :: 0 <= i < n ==> ws[i] == Backoff(delay, i)
  {
    seq(n, (i: int) requires 0 <= i => Backoff(delay, i))
  }

  function Sum(ws: seq<int>): int {
    if ws == [] then 0 else Sum(ws[..|ws| - 1]) + ws[|ws| - 1]
  }

  /** The error raised once every attempt has failed with a retryable error. */
  function ExhaustedError(maxRetries: nat, last: Error): Error {
    AppError("Operation failed after " + NatToString(maxRetries) + " retries: " + last.message, ServerStatus)
  }

  /** Index of the first outcome among the first `n` that stops the loop,
      or `n` when none does. */
  function FirstStop<T>(outcomes: seq<Result<T>>, n: nat): (k: nat)
    requires n <= |outcomes|
    ensures k <= n
    ensures forall j :: 0 <= j < k ==> !Stops(outcomes[j])
    ensures k < n ==> Stops(outcomes[k])
  {
    if n == 0 then 0
    else
      var k := FirstStop(outcomes, n - 1);
      if k < n - 1 then k
      else if Stops(outcomes[n - 1]) then n - 1
      else n
  }

  /** The reference definition of `withRetry`: the first stopping outcome
      within `maxRetries` attempts is returned (success) or rethrown (client
      fault); otherwise every attempt failed and a 500 error naming the last
      one is raised. A wait follows every failed attempt but the last. */
  function Retry<T>(outcomes: seq<Result<T>>, maxRetries: nat, delay: int): (r: RetryRun<T>)
    requires 1 <= maxRetries <= |outcomes|
    ensures 1 <= r.invocations <= maxRetries
    ensures forall j :: 0 <= j < r.invocations - 1 ==> !Stops(outcomes[j])
    ensures Stops(outcomes[r.invocations - 1]) ==> r.result == outcomes[r.invocations - 1]
    ensures !Stops(outcomes[r.invocations - 1]) ==>
              r.invocations == maxRetries
              && r.result == Err(ExhaustedError(maxRetries, outcomes[maxRetries - 1].error))
    ensures r.waits == Schedule(delay, r.invocations - 1)
  {
    var k := FirstStop(outcomes, maxRetries);
    if k < maxRetries then RetryRun(outcomes[k], k + 1, Schedule(delay, k))
    else RetryRun(Err(ExhaustedError(maxRetries, outcomes[maxRetries - 1].error)), maxRetries, Schedule(delay, maxRetries - 1))
  }

  /** The loop of `withRetry`, statement by statement. */
  method WithRetry<T>(outcomes: seq<Result<T>>, maxRetries: nat, delay: int) returns (run: RetryRun<T>)
    requires 1 <= maxRetries <= |outcomes|
    ensures run == Retry(outcomes, maxRetries, delay)
  {
    var lastError: Error := Error(None, "");
    var waits: seq<int> := [];
    var i: nat := 0;
    while i < maxRetries
      invariant i <= maxRetries
      invariant forall j :: 0 <= j < i ==> !Stops(outcomes[j])
      invariant i > 0 ==> lastError == outcomes[i - 1].error
      invariant waits == Schedule(delay, if i < maxRetries then i else maxRetries - 1)
    {
      var o := outcomes[i];
      if o.Ok? {
        return RetryRun(o, i + 1, waits);
      }
      lastError := o.error;
      if IsClientFault(o.error) {
        return RetryRun(o, i + 1, waits);
      }
      if i < maxRetries - 1 {
        waits := waits + [Backoff(delay, i)];
      }
      i := i + 1;
    }
    run := RetryRun(Err(ExhaustedError(maxRetries, lastError)), maxRetries, waits);
  }

  /** When every attempt fails, the waits add up to delay * (2^(maxRetries-1) - 1). */
  lemma {:induction false} ScheduleSum(delay: int, n: nat)
    ensures Sum(Schedule(delay, n)) == delay * (Pow2(n) - 1)
  {
    if n > 0 {
      var ws := Schedule(delay, n);
      assert ws[..n - 1] == Schedule(delay, n - 1);
      ScheduleSum(delay, n - 1);
      calc {
        Sum(ws);
        Sum(Schedule(delay, n - 1)) + Backoff(delay, n - 1);
        delay * (Pow2(n - 1) - 1) + delay * Pow2(n - 1);
        delay * (Pow2(n) - 1);
      }
    }
  }

  /** If every one of the `maxRetries` attempts fails with a retryable error,
      the operation runs exactly `maxRetries` times, the caller sees a 500
      error naming the count and the last message, and the total wait is
      delay * (2^(maxRetries-1) - 1). */
  lemma ExhaustedRun<T>(outcomes: seq<Result<T>>, maxRetries: nat, delay: int)
    requires 1 <= maxRetries <= |outcomes|
    requires forall j :: 0 <= j < maxRetries ==> !Stops(outcomes[j])
    ensures Retry(outcomes, maxRetries, delay).invocations == maxRetries
    ensures Retry(outcomes, maxRetries, delay).result
            == Err(Error(Some(500), "Operation failed after " + NatToString(maxRetries) + " retries: "
                                    + outcomes[maxRetries - 1].error.message))
    ensures Sum(Retry(outcomes, maxRetries, delay).waits) == delay * (Pow2(maxRetries - 1) - 1)
  {
    ScheduleSum(delay, maxRetries - 1);
  }

  /** The outcomes after the stopping one are never looked at: two outcome
      sequences that agree up to it give the same run. */
  lemma RetryReadsPrefix<T>(outcomes: seq<Result<T>>, other: seq<Result<T>>, maxRetries: nat, delay: int)
    requires 1 <= maxRetries <= |outcomes| && maxRetries <= |other|
    requires forall j :: 0 <= j < Retry(outcomes, maxRetries, delay).invocations ==> other[j] == outcomes[j]
    ensures Retry(other, maxRetries, delay) == Retry(outcomes, maxRetries, delay)
  {
  }

  /** A transaction body's outcome before commit: the store it would write,
      with its value, or the error it threw. */
  datatype TxBody<D, +T> = Completed(db: D, value: T) | Threw(error: Error)

  datatype TxEnd<D, +T> = TxEnd(db: D, result: Result<T>)

  /** `withTransaction`: commit on success, roll back and rethrow the same
      error on failure. `commitFault` is an error `commit()` itself throws,
      which the source also catches, rolls back and rethrows. */
  function WithTransaction<D, T>(before: D, body: TxBody<D, T>, commitFault: Option<Error>): (r: TxEnd<D, T>)
    ensures r.result.Ok? <==> body.Completed? && commitFault.None?
    ensures r.result.Ok? ==> r.db == body.db && r.result.value == body.value
    ensures r.result.Err? ==> r.db == before
    ensures body.Threw? ==> r.result == Err(body.error)
    ensures body.Completed? && commitFault.Some? ==> r.result == Err(commitFault.value)
  {
    match body
    case Threw(e) => TxEnd(before, Err(e))
    case Completed(db, v) =>
      if commitFault.Some? then TxEnd(before, Err(commitFault.value)) else TxEnd(db, Ok(v))
  }
}

=== FILE: subscription_service.dfy ===
/** The subscription state machine of services/subscriptionService.js.

    Each exported operation runs its body inside `withRetry`; every attempt
    of a mutating operation opens a transaction, reads, writes the store
    inside the transaction and writes the expiration index directly, then
    commits. A thrown error rolls the store back, but index writes already
    made stay, because Redis is not part of the transaction.

    One attempt is a pure transition of the `State`. What the environment
    decides for an attempt is its `Env`: the clock reading `new Date()`
    returns, and whether a database or Redis call fails, and at which step.
 */
module SubscriptionService {
  import opened Errors
  import opened Models
  import Retry

  const ActiveExistsMessage: string := "User already has an active subscription"
  const PlanNotFoundMessage: string := "Plan not found"
  const NoActiveMessage: string := "No active subscription found"
  const CancelledMessage: string := "Subscription cancelled successfully"

  /** The awaited calls an attempt makes, each a point where the database
      or Redis may throw. */
  datatype Step = AtFindActive | AtFindPlan | AtInsert | AtSave | AtIndexRemove | AtIndexAdd | AtCommit

  /** An infrastructure failure injected into one attempt: the call at
      `step` throws `error` instead of taking effect. */
  datatype Fault = NoFault | FailAt(step: Step, error: Error)

  datatype Env = Env(now: int, fault: Fault)

  predicate Fails(f: Fault, s: Step) {
    f.FailAt? && f.step == s
  }

  datatype Op =
    | CreateOp(userId: int, planId: int)
    | GetOp(userId: int)
    | UpdateOp(userId: int, planId: int)
    | CancelOp(userId: int)

  /** What an operation returns: a subscription row, a row joined with its
      plan (`include: Plan`, a left outer join), or a confirmation. */
  datatype Reply = Row(sub: Subscription) | Joined(sub: Subscription, plan: Option<Plan>) | Message(text: string)

  datatype Outcome = Outcome(state: State, result: Result<Reply>)

  /** An attempt's body up to the commit: the transaction's store or the
      error thrown, and the non-transactional id sequence and index. */
  datatype Body = Body(tx: Retry.TxBody<Store, Reply>, nextId: Id, index: Index)

  function Thrown(st: State, e: Error): Body {
    Body(Retry.Threw(e), st.nextId, st.index)
  }

  /** Commit or roll back the body's transaction, as the try/catch around
      every mutating body does. */
  function Finish(st: State, b: Body, f: Fault): (out: Outcome)
    ensures out.state.nextId == b.nextId && out.state.index == b.index
    ensures out.result.Err? ==> out.state.subs == st.subs
    ensures out.result.Ok? <==> b.tx.Completed? && !Fails(f, AtCommit)
    ensures out.result.Ok? ==> out.state.subs == b.tx.db && out.result.value == b.tx.value
    ensures b.tx.Threw? ==> out.result == Err(b.tx.error)
  {
    var end := Retry.WithTransaction(st.subs, b.tx, if Fails(f, AtCommit) then Some(f.error) else None);
    Outcome(State(end.db, b.nextId, b.index), end.result)
  }

  // ---------------------------------------------------------------- create

  /** The row `Subscription.create` inserts. */
  function NewRow(id: Id, userId: int, planId: int, now: int, plan: Plan): Subscription {
    Subscription(id, userId, planId, now, AddDays(now, plan.duration), Active)
  }

  function CreateBody(st: State, plans: Plans, userId: int, planId: int, env: Env): Body {
    var f := env.fault;
    if Fails(f, AtFindActive) then Thrown(st, f.error)
    else if FindActive(st, userId).Some? then Thrown(st, ValidationError(ActiveExistsMessage))
    else if Fails(f, AtFindPlan) then Thrown(st, f.error)
    else if planId !in plans then Thrown(st, NotFoundError(PlanNotFoundMessage))
    else if Fails(f, AtInsert) then Thrown(st, f.error)
    else
      var row := NewRow(st.nextId, userId, planId, env.now, plans[planId]);
      if Fails(f, AtIndexAdd) then Body(Retry.Threw(f.error), st.nextId + 1, st.index)
      else Body(Retry.Completed(st.subs[row.id := row], Row(row)), st.nextId + 1, st.index[row.id := row.endDate])
  }

  /** One attempt of `createSubscription`. */
  function CreateAttempt(st: State, plans: Plans, userId: int, planId: int, env: Env): (out: Outcome)
    // A failed attempt leaves the store as it was.
    ensures out.result.Err? ==> out.state.subs == st.subs
    // Success adds exactly one ACTIVE row under a fresh id, starting now and
    // ending the plan's duration later, and indexes it under its end date.
    ensures out.result.Ok? ==>
              && planId in plans
              && (Wf(st) ==> !HasActive(st.subs, userId) && st.nextId !in st.subs)
              && var row := Subscription(st.nextId, userId, planId, env.now,
                                         AddDays(env.now, plans[planId].duration), Active);
                 && out.state.subs == st.subs[st.nextId := row]
                 && out.state.index == st.index[st.nextId := row.endDate]
                 && out.result.value == Row(row)
    // A user who already has an ACTIVE subscription is refused first.
    ensures Wf(st) && HasActive(st.subs, userId) && !Fails(env.fault, AtFindActive) ==>
              out == Outcome(st, Err(ValidationError(ActiveExistsMessage)))
    // An unknown plan is refused next, touching neither store nor index.
    ensures Wf(st) && !HasActive(st.subs, userId) && planId !in plans
            && !Fails(env.fault, AtFindActive) && !Fails(env.fault, AtFindPlan) ==>
              out == Outcome(st, Err(NotFoundError(PlanNotFoundMessage)))
    // Without an infrastructure failure those are the only ways to fail.
    ensures Wf(st) && env.fault == NoFault ==>
              (out.result.Ok? <==> !HasActive(st.subs, userId) && planId in plans)
    ensures out.state.nextId >= st.nextId
  {
    Finish(st, CreateBody(st, plans, userId, planId, env), env.fault)
  }

  // ------------------------------------------------------------------- get

  /** One attempt of `getSubscription`: a read, outside any transaction. */
  function GetAttempt(st: State, plans: Plans, userId: int, env: Env): (out: Outcome)
    ensures out.state == st
    ensures out.result.Ok? ==>
              && FindActive(st, userId).Some?
              && var sub := st.subs[FindActive(st, userId).value];
                 && IsActiveOf(sub, userId)
                 && out.result.value == Joined(sub, if sub.planId in plans then Some(plans[sub.planId]) else None)
    ensures Wf(st) && !HasActive(st.subs, userId) && !Fails(env.fault, AtFindActive) ==>
              out.result == Err(NotFoundError(NoActiveMessage))
    ensures Wf(st) && env.fault == NoFault ==> (out.result.Ok? <==> HasActive(st.subs, userId))
  {
    if Fails(env.fault, AtFindActive) then Outcome(st, Err(env.fault.error))
    else match FindActive(st, userId)
      case None => Outcome(st, Err(NotFoundError(NoActiveMessage)))
      case Some(id) =>
        var sub := st.subs[id];
        Outcome(st, Ok(Joined(sub, if sub.planId in plans then Some(plans[sub.planId]) else None)))
  }

  // ---------------------------------------------------------------- update

  function UpdateBody(st: State, plans: Plans, userId: int, planId: int, env: Env): Body {
    var f := env.fault;
    if Fails(f, AtFindActive) then Thrown(st, f.error)
    else match FindActive(st, userId)
      case None => Thrown(st, NotFoundError(NoActiveMessage))
      case Some(id) =>
        if Fails(f, AtFindPlan) then Thrown(st, f.error)
        else if planId !in plans then Thrown(st, NotFoundError(PlanNotFoundMessage))
        else
          var row := st.subs[id];
          var endDate := AddDays(row.startDate, plans[planId].duration);
          if Fails(f, AtIndexRemove) then Thrown(st, f.error)
          else
            var removed := st.index - {id};
            if Fails(f, AtIndexAdd) then Body(Retry.Threw(f.error), st.nextId, removed)
            else
              var index := removed[id := endDate];
              if Fails(f, AtSave) then Body(Retry.Threw(f.error), st.nextId, index)
              else
                var updated := row.(planId := planId, endDate := endDate);
                Body(Retry.Completed(st.subs[id := updated], Row(updated)), st.nextId, index)
  }

  /** One attempt of `updateSubscription`. */
  function UpdateAttempt(st: State, plans: Plans, userId: int, planId: int, env: Env): (out: Outcome)
    ensures out.result.Err? ==> out.state.subs == st.subs
    ensures out.state.nextId == st.nextId
    // Success re-plans the user's ACTIVE row: new plan id, end date counted
    // from the ORIGINAL start date; id, user, start date and status stay, no
    // other row changes, and the index scores the row with its new end date.
    ensures out.result.Ok? ==>
              && FindActive(st, userId).Some?
              && planId in plans
              && var id := FindActive(st, userId).value;
                 var before := st.subs[id];
                 && id in out.state.subs
                 && var after := out.state.subs[id];
                 && after.id == before.id && after.userId == before.userId
                 && after.startDate == before.startDate && after.status == before.status
                 && after.planId == planId
                 && after.endDate == AddDays(before.startDate, plans[planId].duration)
                 && out.state.subs == st.subs[id := after]
                 && out.state.index == st.index[id := after.endDate]
                 && out.result.value == Row(after)
    ensures Wf(st) && !HasActive(st.subs, userId) && !Fails(env.fault, AtFindActive) ==>
              out == Outcome(st, Err(NotFoundError(NoActiveMessage)))
    // An unknown plan is refused before any index write.
    ensures Wf(st) && HasActive(st.subs, userId) && planId !in plans
            && !Fails(env.fault, AtFindActive) && !Fails(env.fault, AtFindPlan) ==>
              out == Outcome(st, Err(NotFoundError(PlanNotFoundMessage)))
    ensures Wf(st) && env.fault == NoFault ==>
              (out.result.Ok? <==> HasActive(st.subs, userId) && planId in plans)
  {
    Finish(st, UpdateBody(st, plans, userId, planId, env), env.fault)
  }

  // ---------------------------------------------------------------- cancel

  function CancelBody(st: State, userId: int, env: Env): Body {
    var f := env.fault;
    if Fails(f, AtFindActive) then Thrown(st, f.error)
    else match FindActive(st, userId)
      case None => Thrown(st, NotFoundError(NoActiveMessage))
      case Some(id) =>
        if Fails(f, AtSave) then Thrown(st, f.error)
        else
          var cancelled := st.subs[id].(status := Cancelled);
          if Fails(f, AtIndexRemove) then Thrown(st, f.error)
          else Body(Retry.Completed(st.subs[id := cancelled], Message(CancelledMessage)), st.nextId, st.index - {id})
  }

  /** One attempt of `cancelSubscription`. */
  function CancelAttempt(st: State, userId: int, env: Env): (out: Outcome)
    ensures out.result.Err? ==> out.state.subs == st.subs
    ensures out.state.nextId == st.nextId
    // Success turns the user's ACTIVE row CANCELLED, changes nothing else in
    // the store, drops the row's index entry and confirms.
    ensures out.result.Ok? ==>
              && FindActive(st, userId).Some?
              && var id := FindActive(st, userId).value;
                 && IsActiveOf(st.subs[id], userId)
                 && out.state.subs == st.subs[id := st.subs[id].(status := Cancelled)]
                 && out.state.index == st.index - {id}
                 && out.result.value == Message(CancelledMessage)
    ensures Wf(st) && !HasActive(st.subs, userId) && !Fails(env.fault, AtFindActive) ==>
              out == Outcome(st, Err(NotFoundError(NoActiveMessage)))
    ensures Wf(st) && env.fault == NoFault ==> (out.result.Ok? <==> HasActive(st.subs, userId))
  {
    Finish(st, CancelBody(st, userId, env), env.fault)
  }

  // ------------------------------------------------------- retried calls

  /** One attempt of any operation. */
  function Attempt(st: State, plans: Plans, op: Op, env: Env): Outcome {
    match op
    case CreateOp(u, p) => CreateAttempt(st, plans, u, p, env)
    case GetOp(u) => GetAttempt(st, plans, u, env)
    case UpdateOp(u, p) => UpdateAttempt(st, plans, u, p, env)
    case CancelOp(u) => CancelAttempt(st, u, env)
  }

  /** The attempts `withRetry` may make, each starting from the state the
      previous one left. */
  function Trace(st: State, plans: Plans, op: Op, envs: seq<Env>): (t: seq<Outcome>)
    ensures |t| == |envs|
    ensures |t| > 0 ==> t[0] == Attempt(st, plans, op, envs[0])
    ensures forall i :: 1 <= i < |t| ==> t[i] == Attempt(t[i - 1].state, plans, op, envs[i])
    decreases |envs|
  {
    if envs == [] then []
    else
      var first := Attempt(st, plans, op, envs[0]);
      [first] + Trace(first.state, plans, op, envs[1..])
  }

  function Results(t: seq<Outcome>): (rs: seq<Result<Reply>>)
    ensures |rs| == |t| && forall i :: 0 <= i < |t| ==> rs[i] == t[i].result
  {
    seq(|t|, (i: int) requires 0 <= i < |t| => t[i].result)
  }

  /** An exported operation: `withRetry(attempt)` with its defaults (three
      attempts, 1000 ms base delay). `envs` holds one environment per attempt
      it may make; the state is the one the last attempt made leaves. */
  function Call(st: State, plans: Plans, op: Op, envs: seq<Env>): (out: Outcome)
    requires |envs| == Retry.DefaultMaxRetries
    // A first attempt without infrastructure failure is the only one made.
    ensures envs[0].fault == NoFault ==> out == Attempt(st, plans, op, envs[0])
    // Callers see a success, a client fault, or the 500 error of exhaustion.
    ensures out.result.Err? ==> IsClientFault(out.result.error) || out.result.error.statusCode == Some(ServerStatus)
    // The first attempt that succeeds or fails with a client fault is the
    // last one made: the caller gets its result and the state it left.
    ensures var t := Trace(st, plans, op, envs);
            forall k | 0 <= k < |t| && Retry.Stops(t[k].result) && (forall j | 0 <= j < k :: !Retry.Stops(t[j].result)) ::
              out == t[k]
    // The 500 error is the exhaustion error naming the third attempt's
    // error, and the state is the one that attempt left.
    ensures var t := Trace(st, plans, op, envs);
            out.result.Err? && !IsClientFault(out.result.error) ==>
              t[2].result.Err?
              && out.result.error == Retry.ExhaustedError(Retry.DefaultMaxRetries, t[2].result.error)
              && out.state == t[2].state
    // Whatever fails and however often, the store never holds two ACTIVE
    // subscriptions of one user.
    ensures Wf(st) && AtMostOneActive(st.subs) ==> Wf(out.state) && AtMostOneActive(out.state.subs)
  {
    var t := Trace(st, plans, op, envs);
    var run := Retry.Retry(Results(t), Retry.DefaultMaxRetries, Retry.DefaultDelay);
    NoFaultAttemptStops(st, plans, op, envs[0]);
    TracePreservesInvariants(st, plans, op, envs);
    assert Results(t)[0] == t[0].result;
    assert Retry.Stops(t[0].result) ==> run.invocations == 1;
    Outcome(t[run.invocations - 1].state, run.result)
  }

  /** Without infrastructure failures an attempt fails only with a client
      fault, so `withRetry` never retries it. */
  lemma NoFaultAttemptStops(st: State, plans: Plans, op: Op, env: Env)
    ensures env.fault == NoFault ==> Retry.Stops(Attempt(st, plans, op, env).result)
  {
  }

  /** Every attempt, whatever call fails in it, keeps the store well formed
      and keeps at most one ACTIVE subscription per user: the store either
      rolls back or commits a change the attempt checked. */
  lemma AttemptPreservesInvariants(st: State, plans: Plans, op: Op, env: Env)
    requires Wf(st) && AtMostOneActive(st.subs)
    ensures Wf(Attempt(st, plans, op, env).state)
    ensures AtMostOneActive(Attempt(st, plans, op, env).state.subs)
  {
  }

  lemma {:induction false} TracePreservesInvariants(st: State, plans: Plans, op: Op, envs: seq<Env>)
    ensures Wf(st) && AtMostOneActive(st.subs) ==>
              forall i :: 0 <= i < |envs| ==>
                Wf(Trace(st, plans, op, envs)[i].state) && AtMostOneActive(Trace(st, plans, op, envs)[i].state.subs)
    decreases |envs|
  {
    if envs != [] && Wf(st) && AtMostOneActive(st.subs) {
      var t := Trace(st, plans, op, envs);
      AttemptPreservesInvariants(st, plans, op, envs[0]);
      var first := t[0];
      TracePreservesInvariants(first.state, plans, op, envs[1..]);
      assert t == [first] + Trace(first.state, plans, op, envs[1..]);
    }
  }
}
